=== FILE: README.md ===
# aigaiea-bot, modelled in Dafny

The bot keeps accounts of the Aigaea network "online". It resolves each
account's uid from its bearer token. Then, in an endless loop per account, it
picks one of the proxy-list URLs named in `proxy_sources.txt` at random and
downloads that list. It pings the Aigaea ping endpoint once through every
proxy on the list, sleeps, and starts over. This project models the logic of
`index.js` that decides what happens:

- `wrappers.dfy`: `Option` and `Result`.
- `jsstring.dfy` (module `JsString`): the JavaScript string operations the
  parsing relies on. These are `trim` (with ECMAScript's set of whitespace
  code points), `split` on one character with `join` as its inverse,
  `startsWith`, `slice(start)`, and the `filter(x => x)` idiom on strings.
- `agent.dfy` (module `ProxyAgent`): `getProxyAgent`, `getProxyOptions`, and
  the ping request `connectToHttp` builds (payload, endpoint, timeout,
  agent). The unsupported-proxy error is caught inside `connectToHttp`.
- `sources.dfy` (module `ProxySource`): `loadProxiesFromSource`. It covers the
  source list, the random choice of a line, the `url,protocol` split, and
  turning the fetched body into prefixed proxy URLs. It also covers the two
  ways it ends: the "No proxy sources" error, and the caught fetch failure
  that gives `[]`.
- `bot.dfy` (module `Bot`): the device id and the fan-out of
  `runAllProxies` (a method with a loop) and the cycle counter of
  `loopProxies` (a method with a `while` loop, `continue` and `break`). It
  also covers `getUid`'s result and the accounts `main` starts a loop for.

The outside world is passed in as values:
- the text of the source file;
- the value of `Math.random()`, a real number in [0, 1);
- the HTTP GET of a proxy list, a function from URL to a body or a failure;
- the uuid from `uuidv4()`;
- `Date.now()`;
- the session endpoint's reply.

A loop runs on a finite sequence of cycles. Each cycle is what
`loadProxiesFromSource` returned in that cycle plus the uuid
`runAllProxies` draws. `Bot.Load` and `Bot.Loads` build those cycles from
the raw inputs above. Sleeps are no-ops. Each ping is recorded as the
arguments of its `connectToHttp` call, so a loop's effect is a sequential
log of dispatches, batch after batch.

Points where the code behaves differently than one might expect:

- The device id is built inside `runAllProxies` (index.js:155-156), which
  runs once per cycle. So each cycle gets a fresh device id, not one per
  loop. `Bot.DeviceIdDeterminedByUuidTail` shows that two cycles share a
  device id only if their uuids agree after the eighth character.
- `count` goes up only after a cycle that dispatched (index.js:171-182).
  Cycles with no proxies are skipped and do not count. A `loopCount` below 1
  that is not 0 is truthy, and `count >= loopCount` already holds after the
  first counted cycle, so such a loop stops after one counted cycle
  (`Bot.Goal`).
- The "No proxy sources" error thrown by `loadProxiesFromSource`
  (index.js:45-47) is not caught in `loopProxies`. It ends that account's
  loop (`Stop.SourcesMissing`). It is not a logged skip.
- With a protocol, a blank line of the fetched body is not dropped. The
  filter runs after the protocol is put in front, so the line becomes the
  bare protocol (`ProxySource.TrailingNewlineYieldsBarePrefix`).

## Model

| member | source | states |
|---|---|---|
| `ProxyAgent.GetProxyAgent` | index.js:21-31 | Succeeds exactly for the four accepted prefixes. The agent is built from the proxy URL itself. Any other string is the unsupported-proxy error naming the proxy. |
| `ProxyAgent.SchemesExclusive` | index.js:22-26 | No string has both `http://` and `https://`, or both SOCKS prefixes, or a SOCKS and an HTTP prefix. So the order of the checks does not matter. |
| `ProxyAgent.AgentByScheme` | index.js:21-31 | Each outcome holds exactly for its prefix: SOCKS for `socks4://`/`socks5://`, HTTP for `http://`, HTTPS for `https://`, the error for everything else. |
| `ProxyAgent.GetProxyOptions` | index.js:33-40 | The SOCKS agent option exactly when the string starts with `socks4` or `socks5`. Otherwise the proxy string itself, unchanged. |
| `ProxyAgent.OptionsCoverSocksAgents` | index.js:22-23 | Every proxy that `getProxyAgent` gives a SOCKS agent gets the same agent from `getProxyOptions`. |
| `ProxyAgent.OptionsLooserThanAgent` | index.js:35 | The looser test is strictly looser: the well-formed URL `socks5h://127.0.0.1:1080` is a SOCKS option but an unsupported agent. |
| `ProxyAgent.OptionsPassHttpThrough` | index.js:37-38 | `http://` and `https://` proxies are passed through as `{ proxy }`. |
| `ProxyAgent.ConnectToHttp` | index.js:86-150 | A request is sent exactly when the proxy's prefix is supported, and otherwise the caught error names the proxy. The request carries the ping URL, the bearer token, the uid, the device id as `browser_id`, version `1.0.0`, a 30 s timeout, and the agent that `getProxyAgent` builds for the proxy. The timestamp is the current time in whole seconds. |
| `JsString.Trim` | index.js:44 | The result is trimmed: empty, or beginning and ending with a non-whitespace code point. It is never longer than the input. |
| `JsString.TrimIsMiddle` | index.js:44 | The trimmed string is a piece of the input with only whitespace before and after it. |
| `JsString.TrimOfPadded` | index.js:44 | Trimming is undone by nothing but whitespace: any trimmed string surrounded by whitespace trims back to itself. |
| `JsString.TrimIdempotent` | index.js:44 | Trimming twice is trimming once. |
| `JsString.TrimEmptyIff` | index.js:44 | A line trims to the empty string exactly when it is all whitespace. |
| `JsString.TrimAddsNothing` | index.js:44 | Trimming brings in no code point that the line did not have. |
| `JsString.Split` | index.js:44 | At least one piece, no piece holds the separator, and joining the pieces with the separator gives back the string. |
| `JsString.SplitJoin` | index.js:51 | Splitting undoes joining when no part holds the separator. |
| `JsString.SplitAround` | index.js:44 | The pieces of `a + sep + b` are those of `a` followed by those of `b`. |
| `JsString.DropEmpty` | index.js:44 | Keeps only non-empty strings of the input and is never longer. |
| `JsString.DropEmptyAppend` | index.js:44 | Filtering distributes over concatenation, so order is kept. |
| `JsString.DropEmptyNothingLeft` | index.js:44 | Nothing survives exactly when every string is empty. |
| `JsString.Slice` | index.js:155 | `slice(start)` keeps the code points of `s` from `start` on, and none when `start` is past the end. |
| `ProxySource.SourceLines` | index.js:44 | Never more sources than lines. Every source is non-empty and trimmed. |
| `ProxySource.TrimEach` | index.js:44 | One result per line, in order: the i-th is the trim of the i-th line, and it is trimmed. |
| `ProxySource.SourceLinesAreLines` | index.js:44 | Each source is the trim of one of the file's lines: non-empty, unchanged by `trim`, and without a line feed. |
| `ProxySource.SourceLinesAround` | index.js:44 | Sources keep file order: the sources of two blocks joined by a line feed are those of the first then those of the second. |
| `ProxySource.SourceLinesOfLine` | index.js:44 | A single line is a source exactly when it is not blank, and then the source is the trimmed line. |
| `ProxySource.NoSourcesIff` | index.js:44-47 | The source list is empty, which raises "No proxy sources", exactly when the file is all whitespace. |
| `ProxySource.SplitSource` | index.js:51 | The URL never holds a comma. There is no protocol exactly when the line has no comma, and then the URL is the whole line. Otherwise the protocol is the whole second comma field: the line is `url,protocol`, or starts with `url,protocol,`. |
| `ProxySource.ProtocolPrefix` | index.js:55 | A missing protocol is the empty prefix; a present one is used as it is. |
| `ProxySource.PrefixEach` | index.js:55 | One result per line, in order: the i-th starts with the prefix, followed by the trim of the i-th line. |
| `ProxySource.ProxyList` | index.js:55 | Never more proxies than body lines. Every proxy is non-empty and starts with the protocol. |
| `ProxySource.ProxyListKeepsEveryLine` | index.js:55 | With a protocol, every body line gives exactly one proxy, `protocol + trim(line)`, in body order. |
| `ProxySource.ProxyListWithoutProtocol` | index.js:55 | Without a protocol, the proxies are the body's non-blank lines, trimmed, in order, the same rule as for sources. |
| `ProxySource.ProxyListAround` | index.js:55 | Proxies keep body order: two blocks of lines joined by a line feed give the proxies of the first then those of the second. |
| `ProxySource.ProxyListOfLine` | index.js:55 | With a protocol, one line gives exactly `protocol + trim(line)`, blank or not. |
| `ProxySource.TrailingNewlineYieldsBarePrefix` | index.js:55 | A body `address\n` read with a protocol gives `protocol + address` and then the bare protocol. |
| `ProxySource.PickIndex` | index.js:50 | `Math.floor(rnd * n)` is a valid index `i`, the one with `i <= rnd * n < i + 1`. |
| `ProxySource.EverySourceReachable` | index.js:50 | Every source can be chosen: `rnd = i / n` is a valid random value and picks the i-th. |
| `ProxySource.ChosenEntry` | index.js:50-51 | The chosen entry is the split of one of the sources. |
| `ProxySource.ChosenEntryReachable` | index.js:50-51 | Every source is chosen by some `rnd`: `rnd = i / n` is a valid random value and chooses the split of the i-th source. |
| `ProxySource.LoadProxies` | index.js:43-64 | The error is raised exactly when there are no sources, and it is "No proxy sources". A failed fetch gives `[]`. A fetched body gives its proxy list, which is empty when no proxy survives. Every proxy starts with the chosen protocol. |
| `ProxySource.LoadFromLiveUpstream` | index.js:53-59 | With at least one source, and a chosen source URL that answers with at least one non-blank line, the result is a non-empty list. |
| `ProxySource.LoadFromDeadUpstream` | index.js:60-63 | With at least one source and a failing GET of the chosen source URL, the result is `[]` and no error. |
| `Bot.DeviceId` | index.js:155-156 | The device id is the browser id followed by the uuid's characters from the eighth on: longer by the uuid's length minus 8, or not at all when the uuid is shorter than 8. |
| `Bot.UuidDeviceIdLength` | index.js:155-156 | With a 36-character uuid the device id is 28 code points longer than the browser id. |
| `Bot.DeviceIdDeterminedByUuidTail` | index.js:155-156 | For one browser id, two device ids agree exactly when the uuids agree from the eighth character on. |
| `Bot.Batch` | index.js:158-160 | One ping per proxy, in proxy order, each with the uid, the token and the one device id. |
| `Bot.RunAllProxies` | index.js:153-162 | One dispatch per proxy, in proxy order. All carry the uid, the token and the same device id built from the browser id and the uuid. |
| `Bot.Load` | index.js:170 | A cycle keeps its input's uuid. It hits the error exactly when its source file is all whitespace, and the error is "No proxy sources". |
| `Bot.Loads` | index.js:170 | One cycle per input, in order, each the one its input leads to. |
| `Bot.Truthy` | index.js:183 | The limit is off exactly when `loopCount` is `null` or `0`. |
| `Bot.Goal` | index.js:183 | The first count at which `count >= loopCount` holds: at least 1 and at least `loopCount`, and 1 whenever `loopCount` is below 2. |
| `Bot.LoopProxies` | index.js:165-188 | Cycles run in order. `count` is the number of cycles that dispatched, and the log is their batches in order. It stops with "No proxy sources" exactly at the first cycle without sources, unless a truthy limit is reached before it. It stops on the limit only for a truthy `loopCount`, with `count` equal to the goal, right after a dispatching cycle. Otherwise it runs through all input. With a truthy `loopCount`, whenever it does not stop on the limit, `count` stays below the goal, so it never runs past the limit. With a truthy `loopCount`, when the input holds enough dispatching cycles and no missing sources, it always stops on the limit. |
| `Bot.LiveUpstreamEveryCycleCounts` | index.js:170-182 | While the chosen source of every cycle answers with proxies, every cycle has sources and counts. |
| `Bot.DeadUpstreamNothingCounts` | index.js:170-175 | While the GET of the chosen source fails in every cycle, every cycle has sources but is skipped: nothing counts and nothing is dispatched. |
| `Bot.DispatchedForAccount` | index.js:158-159 | Every ping of a loop carries the account's uid and token and a device id that starts with its browser id. |
| `Bot.GetUid` | index.js:78-82 | A uid exactly when the session call succeeded and returned a non-empty `data.uid`, and then it is that uid. Failures give `null`. |
| `Bot.StartedLoops` | index.js:196-206 | Only accounts with a resolved uid get a loop, with a non-empty uid and the default `loopCount` (`null`). Never more loops than accounts. |
| `Bot.Resolved` | index.js:198-205 | Never more than the replies. None resolves exactly when the count is 0, and all resolve exactly when it equals the number of replies. |
| `Bot.StartedLoopsCount` | index.js:198-205 | Exactly one loop per account whose uid resolves. |
| `Bot.StartedLoopsAppend` | index.js:196-206 | Accounts are handled independently, in order: the loops for two groups of accounts are those of each group. |
| `Bot.StartedLoopsOfOne` | index.js:198-205 | One account: a loop starts exactly when its reply resolves a uid, with that uid, that account and the default `loopCount`. |
| `Bot.OneOfTwoAccountsStarts` | index.js:198-205 | Two accounts, the first rejected by the session endpoint: exactly one loop starts, for the second. |

## Left out

- Network I/O: the `axios` calls to the proxy list, the session endpoint and
  the ping endpoint. Only their results are modelled, as inputs. The ping's
  HTTP response and its logging are not modelled.
- Reading `config.json` and `proxy_sources.txt`: the file texts are inputs,
  and parsing the JSON configuration is not modelled. A failing
  `fs.readFileSync` of `proxy_sources.txt` (index.js:44) is not modelled
  either: it throws outside the `try`, so it would leave
  `loadProxiesFromSource` and end the loop as "No proxy sources" does.
- A proxy-list response whose `data` is not a string throws inside the `try`
  of `loadProxiesFromSource`. It is modelled as a failed fetch, which gives
  the same `[]`.
- `Math.random()`, `uuidv4()` and `Date.now()` are parameters. The
  `user-agents` library is left out: it only sets a header.
- The concurrency of `Promise.all` (in `runAllProxies` and in `main`) and the
  `setTimeout` sleeps. Dispatches form a sequential log and sleeps do
  nothing. Accounts are modelled one loop at a time.
- The process-wide TLS agent with certificate checks off, the unused
  `cloudscraper` request options, the proxy-agent libraries' internals and
  all console logging.
- `getProxyOptions` is not called anywhere in `index.js`. It is modelled on
  its own and compared with `getProxyAgent`.
- `ecosystem.config.js` is a process-manager descriptor with no logic. It is
  not part of this model.
- Bot.LoopProxies: the source loop never ends on its own when `loopCount` is
  `null` or `0`. A finite input sequence stands for its first cycles, and
  running out of input is reported as `InputExhausted`, not as
  non-termination. Only a finite prefix of that behaviour is covered.
- Strings are sequences of code points, while JavaScript strings are UTF-16
  code units. This matters only for `slice(8)` on a uuid, which is ASCII.
- `loopCount` is an integer or absent. Non-integer values are not modelled.
- ProxyAgent.ConnectToHttp: the agent constructors are taken not to throw.
  A malformed proxy URL with a supported prefix, such as the bare `http://`
  that `ProxySource.TrailingNewlineYieldsBarePrefix` produces, is `Sent` in
  the model. In `index.js` a throwing constructor would be caught and logged
  at index.js:147-148.
- ProxyAgent.GetProxyOptions: the SOCKS agent constructor is taken not to
  throw here either. `getProxyOptions` has no `try`, so in `index.js` a
  malformed URL such as a bare `socks5` would throw out of it uncaught.
- Bot.GetUid: `data.uid` is modelled as an optional string. A numeric uid is
  not modelled: in `index.js` a uid of `0` would give `null`, and any other
  number would pass.
- ProxySource.PickIndex: `rnd * n` is exact real multiplication, not a
  double product rounded to 53 bits.

=== FILE: agent.dfy ===
/** Choosing the outbound transport for a proxy URL (`getProxyAgent`), the
    looser request-options variant (`getProxyOptions`), and the ping request
    that `connectToHttp` builds around the chosen transport. The agent
    objects of the proxy libraries are represented by the kind of agent and
    the URL it was built from. */
module ProxyAgent {
  import opened Wrappers
  import opened JsString

  datatype Agent =
    | SocksAgent(url: string)
    | HttpProxyAgent(url: string)
    | HttpsProxyAgent(url: string)

  /** The error `getProxyAgent` throws for an unknown scheme. */
  datatype AgentError = UnsupportedProxyType(proxy: string)

  /** One of the four prefixes `getProxyAgent` accepts. */
  predicate HasSupportedScheme(proxy: string) {
    StartsWith(proxy, "socks4://") || StartsWith(proxy, "socks5://")
    || StartsWith(proxy, "http://") || StartsWith(proxy, "https://")
  }

  /** `getProxyAgent(proxy)`: the transport is chosen by the URL's prefix,
      and any other prefix is an error naming the proxy. */
  function GetProxyAgent(proxy: string): (r: Result<Agent, AgentError>)
    ensures r.Success? <==> HasSupportedScheme(proxy)
    ensures r.Success? ==> r.value.url == proxy
    ensures r.Failure? ==> r.error == UnsupportedProxyType(proxy)
  {
    if StartsWith(proxy, "socks4://") || StartsWith(proxy, "socks5://") then
      Success(SocksAgent(proxy))
    else if StartsWith(proxy, "http://") then
      Success(HttpProxyAgent(proxy))
    else if StartsWith(proxy, "https://") then
      Success(HttpsProxyAgent(proxy))
    else
      Failure(UnsupportedProxyType(proxy))
  }

  /** No string carries two of the accepted prefixes' schemes: `http://`
      and `https://` part at their fifth character, and the SOCKS prefixes
      start with a different letter from the HTTP ones. */
  lemma {:induction false} SchemesExclusive(proxy: string)
    ensures !(StartsWith(proxy, "http://") && StartsWith(proxy, "https://"))
    ensures !(StartsWith(proxy, "socks4://") && StartsWith(proxy, "socks5://"))
    ensures StartsWith(proxy, "socks4://") || StartsWith(proxy, "socks5://")
            ==> !StartsWith(proxy, "http://") && !StartsWith(proxy, "https://")
  {
    if |proxy| > 5 {
      assert StartsWith(proxy, "http://") ==> proxy[0] == 'h' && proxy[4] == ':';
      assert StartsWith(proxy, "https://") ==> proxy[0] == 'h' && proxy[4] == 's';
      assert StartsWith(proxy, "socks4://") ==> proxy[0] == 's' && proxy[5] == '4';
      assert StartsWith(proxy, "socks5://") ==> proxy[0] == 's' && proxy[5] == '5';
    }
  }

  /** Each accepted prefix leads to its own agent, whatever order the checks
      are made in: the four outcomes are decided by the prefix alone. */
  lemma AgentByScheme(proxy: string)
    ensures GetProxyAgent(proxy) == Success(SocksAgent(proxy))
            <==> StartsWith(proxy, "socks4://") || StartsWith(proxy, "socks5://")
    ensures GetProxyAgent(proxy) == Success(HttpProxyAgent(proxy))
            <==> StartsWith(proxy, "http://")
    ensures GetProxyAgent(proxy) == Success(HttpsProxyAgent(proxy))
            <==> StartsWith(proxy, "https://")
    ensures GetProxyAgent(proxy) == Failure(UnsupportedProxyType(proxy))
            <==> !HasSupportedScheme(proxy)
  {
    SchemesExclusive(proxy);
  }

  /** What `getProxyOptions` returns: an agent for SOCKS proxies, otherwise
      the proxy string itself for the HTTP client to use. */
  datatype RequestOptions =
    | AgentOption(agent: Agent)
    | ProxyOption(proxy: string)

  /** `getProxyOptions(proxy)`: tests for `socks4`/`socks5` without the
      `://` that `getProxyAgent` requires. */
  function GetProxyOptions(proxy: string): (r: RequestOptions)
    ensures r.AgentOption? <==> StartsWith(proxy, "socks4") || StartsWith(proxy, "socks5")
    ensures r.AgentOption? ==> r.agent == SocksAgent(proxy)
    ensures r.ProxyOption? ==> r.proxy == proxy
  {
    if StartsWith(proxy, "socks4") || StartsWith(proxy, "socks5") then
      AgentOption(SocksAgent(proxy))
    else
      ProxyOption(proxy)
  }

  /** `getProxyOptions` is at least as permissive for SOCKS as
      `getProxyAgent`: every proxy given a SOCKS agent by the one is given
      the same agent by the other. */
  lemma {:induction false} OptionsCoverSocksAgents(proxy: string)
    requires GetProxyAgent(proxy) == Success(SocksAgent(proxy))
    ensures GetProxyOptions(proxy) == AgentOption(SocksAgent(proxy))
  {
    SchemesExclusive(proxy);
    if StartsWith(proxy, "socks4://") {
      assert "socks4" <= "socks4://";
    } else {
      assert "socks5" <= "socks5://";
    }
  }

  /** Strictly more permissive: a `socks5h://` URL, which names a SOCKS5
      proxy that resolves host names itself, is a SOCKS option but an
      unsupported agent. */
  lemma OptionsLooserThanAgent()
    ensures GetProxyOptions(SOCKS5H_EXAMPLE) == AgentOption(SocksAgent(SOCKS5H_EXAMPLE))
    ensures GetProxyAgent(SOCKS5H_EXAMPLE).Failure?
  {
    var s := SOCKS5H_EXAMPLE;
    assert s[0] == 's' && s[5] == '5' && s[6] == 'h';
    assert "socks5" <= s;
    assert !("socks5://" <= s) && !("socks4://" <= s);
    assert !("http://" <= s) && !("https://" <= s);
  }

  const SOCKS5H_EXAMPLE: string := "socks5h://127.0.0.1:1080"

  /** HTTP and HTTPS proxies are passed through unchanged as `{ proxy }`. */
  lemma {:induction false} OptionsPassHttpThrough(proxy: string)
    requires StartsWith(proxy, "http://") || StartsWith(proxy, "https://")
    ensures GetProxyOptions(proxy) == ProxyOption(proxy)
  {
    assert proxy[0] == 'h';
  }

  /** The JSON body of a ping. */
  datatype Ping = Ping(uid: string, browserId: string, timestamp: int, version: string)

  /** The POST that `connectToHttp` sends: endpoint, bearer token, body,
      the proxy's agent, the request timeout in milliseconds. */
  datatype PingRequest = PingRequest(
    url: string, bearer: string, body: Ping, agent: Agent, timeoutMs: nat)

  /** What one `connectToHttp` call does: sends the request, or catches the
      unsupported-proxy error before anything is sent. */
  datatype Attempt = Sent(request: PingRequest) | Rejected(error: AgentError)

  const PING_URL: string := "https://api.aigaea.net/api/network/ping"
  const PING_VERSION: string := "1.0.0"
  const PING_TIMEOUT_MS: nat := 30000

  /** `connectToHttp(uid, token, proxy, deviceId)` up to the network call,
      with `Date.now()` passed in as `nowMs`. The payload's timestamp is the
      current time in whole seconds (`Math.floor(nowMs / 1000)`); the agent
      is the one `getProxyAgent` chooses, and an unsupported proxy is caught
      and logged, so it ends the attempt without an error. */
  function ConnectToHttp(uid: string, token: string, proxy: string, deviceId: string, nowMs: int)
    : (a: Attempt)
    ensures a.Sent? <==> HasSupportedScheme(proxy)
    ensures a.Rejected? ==> a.error == UnsupportedProxyType(proxy)
    ensures a.Sent? ==>
      && a.request.url == PING_URL
      && a.request.bearer == token
      && a.request.body.uid == uid
      && a.request.body.browserId == deviceId
      && a.request.body.version == PING_VERSION
      && a.request.body.timestamp * 1000 <= nowMs < a.request.body.timestamp * 1000 + 1000
      && GetProxyAgent(proxy) == Success(a.request.agent)
      && a.request.timeoutMs == PING_TIMEOUT_MS
  {
    var body := Ping(uid, deviceId, nowMs / 1000, PING_VERSION);
    match GetProxyAgent(proxy)
    case Success(agent) => Sent(PingRequest(PING_URL, token, body, agent, PING_TIMEOUT_MS))
    case Failure(e) => Rejected(e)
  }
}

=== FILE: bot.dfy ===
/** The bot's control flow for one account and across accounts: the device
    id and the per-cycle fan-out of `runAllProxies`, the cycle counter of
    `loopProxies`, and the accounts `main` starts a loop for. Each ping is
    recorded as the arguments of its `connectToHttp` call; the pings of one
    cycle form a batch, and a loop's dispatch log is its batches in order.
    Sleeps, logging and the concurrency of `Promise.all` are left out. */
module Bot {
  import opened Wrappers
  import opened JsString
  import opened ProxySource

  /** `${browserId}${uuidv4().slice(8)}`, with the uuid passed in. */
  function DeviceId(browserId: string, uuid: string): (id: string)
    ensures StartsWith(id, browserId)
    ensures |id| == |browserId| + (if |uuid| >= 8 then |uuid| - 8 else 0)
    ensures forall k :: |browserId| <= k < |id| ==> id[k] == uuid[k - |browserId| + 8]
  {
    browserId + Slice(uuid, 8)
  }

  /** A version-4 uuid has 36 characters, so the device id adds 28 to the
      browser id. */
  lemma UuidDeviceIdLength(browserId: string, uuid: string)
    requires |uuid| == 36
    ensures |DeviceId(browserId, uuid)| == |browserId| + 28
  {
  }

  /** For one browser id, two device ids are equal exactly when the uuids
      agree after their first eight characters. */
  lemma DeviceIdDeterminedByUuidTail(browserId: string, u1: string, u2: string)
    requires |u1| >= 8 && |u2| >= 8
    ensures DeviceId(browserId, u1) == DeviceId(browserId, u2) <==> u1[8..] == u2[8..]
  {
    if DeviceId(browserId, u1) == DeviceId(browserId, u2) {
      assert DeviceId(browserId, u1)[|browserId|..] == u1[8..];
      assert DeviceId(browserId, u2)[|browserId|..] == u2[8..];
    }
  }

  /** One `connectToHttp(uid, token, proxy, deviceId)` call. */
  datatype Dispatch = Dispatch(uid: string, token: string, proxy: string, deviceId: string)

  /** The pings of one cycle: one per proxy, in proxy order, all with the
      same device id. */
  function Batch(uid: string, token: string, proxies: seq<string>, deviceId: string)
    : (tasks: seq<Dispatch>)
    ensures |tasks| == |proxies|
    ensures forall k :: 0 <= k < |tasks| ==>
      tasks[k].proxy == proxies[k] && tasks[k].uid == uid && tasks[k].token == token
      && tasks[k].deviceId == deviceId
  {
    seq(|proxies|, k requires 0 <= k < |proxies| => Dispatch(uid, token, proxies[k], deviceId))
  }

  /** `runAllProxies(uid, token, proxies, browserId)`: builds one device id
      and pushes one task per proxy. */
  method RunAllProxies(uid: string, token: string, proxies: seq<string>, browserId: string, uuid: string)
    returns (tasks: seq<Dispatch>)
    ensures |tasks| == |proxies|
    ensures forall k :: 0 <= k < |tasks| ==> tasks[k].proxy == proxies[k]
    ensures forall k :: 0 <= k < |tasks| ==>
      tasks[k].uid == uid && tasks[k].token == token && tasks[k].deviceId == DeviceId(browserId, uuid)
    ensures tasks == Batch(uid, token, proxies, DeviceId(browserId, uuid))
  {
    var rdm := Slice(uuid, 8);
    var deviceId := browserId + rdm;
    tasks := [];
    for i := 0 to |proxies|
      invariant |tasks| == i
      invariant forall k :: 0 <= k < i ==> tasks[k] == Dispatch(uid, token, proxies[k], deviceId)
    {
      tasks := tasks + [Dispatch(uid, token, proxies[i], deviceId)];
    }
  }

  /** What one cycle of the loop receives from outside: the proxy-source
      file's text, the `Math.random()` value, the HTTP GET, the uuid. */
  datatype CycleInput = CycleInput(sourceText: string, rnd: RandomValue, fetch: string -> Fetch, uuid: string)

  /** What the loop body works with in one cycle: what
      `loadProxiesFromSource` gave it (a list, or the "No proxy sources"
      error) and the uuid `runAllProxies` draws. */
  datatype Cycle = Cycle(loaded: Result<seq<string>, LoadError>, uuid: string)

  /** The cycle that a cycle input leads to. It ends the loop with the
      "No proxy sources" error exactly when the source file it read holds
      nothing but whitespace. */
  function Load(c: CycleInput): (cycle: Cycle)
    ensures cycle.uuid == c.uuid
    ensures cycle.loaded.Failure? <==> AllWhitespace(c.sourceText)
    ensures cycle.loaded.Failure? ==> cycle.loaded.error == NoProxySources
  {
    NoSourcesIff(c.sourceText);
    Cycle(LoadProxies(c.sourceText, c.rnd, c.fetch), c.uuid)
  }

  /** The cycles that a run of cycle inputs leads to, one each. */
  function Loads(inputs: seq<CycleInput>): (env: seq<Cycle>)
    ensures |env| == |inputs|
    ensures forall k :: 0 <= k < |env| ==> env[k] == Load(inputs[k])
  {
    seq(|inputs|, k requires 0 <= k < |inputs| => Load(inputs[k]))
  }

  /** A cycle that reaches `runAllProxies`: it loaded a non-empty list. */
  predicate Dispatches(c: Cycle)
  {
    c.loaded.Success? && c.loaded.value != []
  }

  /** The cycle's source file listed at least one source: the load did not
      end in the "No proxy sources" error. */
  predicate HasSources(c: Cycle) {
    c.loaded.Success?
  }

  /** No cycle hit the "No proxy sources" error. */
  predicate SourcesPresent(env: seq<Cycle>) {
    forall i :: 0 <= i < |env| ==> HasSources(env[i])
  }

  /** The number of cycles among `env` that dispatched. */
  function CompletedCycles(env: seq<Cycle>): (n: nat)
    ensures n <= |env|
    decreases |env|
  {
    if env == [] then 0
    else CompletedCycles(env[..|env| - 1]) + (if Dispatches(env[|env| - 1]) then 1 else 0)
  }

  /** The pings the cycles of `env` dispatch, batch after batch. */
  function Dispatched(uid: string, token: string, browserId: string, env: seq<Cycle>)
    : seq<Dispatch>
    decreases |env|
  {
    if env == [] then []
    else
      var c := env[|env| - 1];
      Dispatched(uid, token, browserId, env[..|env| - 1])
      + if Dispatches(c) then Batch(uid, token, c.loaded.value, DeviceId(browserId, c.uuid)) else []
  }

  /** One more cycle: it counts when it dispatched. */
  lemma CompletedStep(env: seq<Cycle>, i: nat)
    requires i < |env|
    ensures CompletedCycles(env[..i + 1])
            == CompletedCycles(env[..i]) + if Dispatches(env[i]) then 1 else 0
  {
    var prefix := env[..i + 1];
    assert prefix[..i] == env[..i];
    assert prefix[i] == env[i];
  }

  /** One more cycle: its dispatches, if any, come after the earlier ones. */
  lemma DispatchedStep(uid: string, token: string, browserId: string, env: seq<Cycle>, i: nat)
    requires i < |env|
    ensures Dispatched(uid, token, browserId, env[..i + 1])
            == Dispatched(uid, token, browserId, env[..i])
               + if Dispatches(env[i])
                 then Batch(uid, token, env[i].loaded.value, DeviceId(browserId, env[i].uuid))
                 else []
  {
    var prefix := env[..i + 1];
    assert prefix[..i] == env[..i];
    assert prefix[i] == env[i];
  }

  lemma PresentStep(env: seq<Cycle>, i: nat)
    requires i < |env|
    ensures SourcesPresent(env[..i + 1]) <==> SourcesPresent(env[..i]) && HasSources(env[i])
  {
    var prefix := env[..i + 1];
    if SourcesPresent(env[..i]) && HasSources(env[i]) {
      forall k | 0 <= k <= i ensures HasSources(prefix[k]) {
        if k < i { assert prefix[k] == env[..i][k]; }
      }
    }
    if SourcesPresent(prefix) {
      assert HasSources(prefix[i]);
      forall k | 0 <= k < i ensures HasSources(env[..i][k]) {
        assert prefix[k] == env[..i][k];
      }
    }
  }

  /** A cycle input whose source file lists a source and whose GET of the
      chosen source returns a body with a non-blank line. */
  predicate LiveUpstream(c: CycleInput) {
    && SourceLines(c.sourceText) != []
    && var url := ChosenEntry(c.sourceText, c.rnd).url;
       c.fetch(url).Body? && !AllWhitespace(c.fetch(url).text)
  }

  /** A cycle input whose source file lists a source and whose GET of the
      chosen source fails. */
  predicate DeadUpstream(c: CycleInput) {
    && SourceLines(c.sourceText) != []
    && c.fetch(ChosenEntry(c.sourceText, c.rnd).url) == FetchFailed
  }

  /** Cycles that all dispatch all count, and none lacks sources. */
  lemma {:induction false} AllCount(env: seq<Cycle>)
    requires forall k :: 0 <= k < |env| ==> Dispatches(env[k])
    ensures SourcesPresent(env)
    ensures CompletedCycles(env) == |env|
    decreases |env|
  {
    if env != [] {
      var n := |env| - 1;
      AllCount(env[..n]);
      PresentStep(env, n);
      assert env[..n + 1] == env;
    }
  }

  /** Cycles that all load an empty list count nothing and dispatch nothing,
      and none lacks sources. */
  lemma {:induction false} NoneCount(uid: string, token: string, browserId: string, env: seq<Cycle>)
    requires forall k :: 0 <= k < |env| ==> env[k].loaded == Success([])
    ensures SourcesPresent(env)
    ensures CompletedCycles(env) == 0
    ensures Dispatched(uid, token, browserId, env) == []
    decreases |env|
  {
    if env != [] {
      var n := |env| - 1;
      NoneCount(uid, token, browserId, env[..n]);
      PresentStep(env, n);
      assert env[..n + 1] == env;
    }
  }

  /** While the chosen source of every cycle answers with proxies, every cycle loads sources
      and dispatches, so every cycle counts. */
  lemma LiveUpstreamEveryCycleCounts(inputs: seq<CycleInput>)
    requires forall k :: 0 <= k < |inputs| ==> LiveUpstream(inputs[k])
    ensures SourcesPresent(Loads(inputs))
    ensures CompletedCycles(Loads(inputs)) == |inputs|
  {
    var env := Loads(inputs);
    forall k | 0 <= k < |env| ensures Dispatches(env[k]) {
      var c := inputs[k];
      LoadFromLiveUpstream(c.sourceText, c.rnd, c.fetch);
    }
    AllCount(env);
  }

  /** While the chosen source of every cycle fails, every cycle loads sources but is skipped:
      nothing counts and nothing is dispatched. */
  lemma DeadUpstreamNothingCounts(uid: string, token: string, browserId: string,
                                  inputs: seq<CycleInput>)
    requires forall k :: 0 <= k < |inputs| ==> DeadUpstream(inputs[k])
    ensures SourcesPresent(Loads(inputs))
    ensures CompletedCycles(Loads(inputs)) == 0
    ensures Dispatched(uid, token, browserId, Loads(inputs)) == []
  {
    var env := Loads(inputs);
    forall k | 0 <= k < |env| ensures env[k].loaded == Success([]) {
      var c := inputs[k];
      LoadFromDeadUpstream(c.sourceText, c.rnd, c.fetch);
    }
    NoneCount(uid, token, browserId, env);
  }

  /** Every ping of a loop carries the account's uid and token and a device
      id built from its browser id. */
  lemma {:induction false} DispatchedForAccount(uid: string, token: string, browserId: string, env: seq<Cycle>)
    ensures forall d :: d in Dispatched(uid, token, browserId, env) ==>
      d.uid == uid && d.token == token && StartsWith(d.deviceId, browserId)
    decreases |env|
  {
    if env != [] {
      DispatchedForAccount(uid, token, browserId, env[..|env| - 1]);
    }
  }

  /** How a loop ends. `InputExhausted` stands for a loop that would go on:
      the finite input ran out first. */
  datatype Stop = LimitReached | SourcesMissing | InputExhausted

  /** `loopCount && ...`: `null` and `0` switch the limit off. */
  predicate Truthy(loopCount: Option<int>): (t: bool)
    ensures !t <==> loopCount == None || loopCount == Some(0)
  {
    loopCount.Some? && loopCount.value != 0
  }

  /** The count at which `count >= loopCount` first holds, counting from 1. */
  function Goal(loopCount: int): (n: nat)
    ensures n >= 1 && n >= loopCount
    ensures n == 1 || n - 1 < loopCount
  {
    if loopCount < 1 then 1 else loopCount
  }

  /** `loopProxies(uid, token, file, delays, browserId, loopCount)`, run on a
      finite sequence of cycle inputs. Cycles with no proxies skip to the
      next one without counting; a dispatching cycle counts, and a truthy
      `loopCount` ends the loop once the count reaches it. The "No proxy
      sources" error leaves the loop. */
  method LoopProxies(uid: string, token: string, browserId: string, loopCount: Option<int>, env: seq<Cycle>)
    returns (stop: Stop, cycles: nat, count: nat, log: seq<Dispatch>)
    ensures cycles <= |env|
    ensures count == CompletedCycles(env[..cycles])
    ensures log == Dispatched(uid, token, browserId, env[..cycles])
    ensures stop == SourcesMissing <==> 0 < cycles && !HasSources(env[cycles - 1])
    ensures stop == SourcesMissing ==> SourcesPresent(env[..cycles - 1])
    ensures stop != SourcesMissing ==> SourcesPresent(env[..cycles])
    ensures stop == LimitReached ==>
      Truthy(loopCount) && count == Goal(loopCount.value) && 0 < cycles && Dispatches(env[cycles - 1])
    ensures stop == InputExhausted ==>
      cycles == |env| && (Truthy(loopCount) ==> count < Goal(loopCount.value))
    ensures stop != LimitReached && Truthy(loopCount) ==> count < Goal(loopCount.value)
    ensures Truthy(loopCount) && SourcesPresent(env) && CompletedCycles(env) >= Goal(loopCount.value)
            ==> stop == LimitReached
  {
    stop, cycles, count, log := InputExhausted, 0, 0, [];
    while cycles < |env|
      invariant cycles <= |env|
      invariant count == CompletedCycles(env[..cycles])
      invariant log == Dispatched(uid, token, browserId, env[..cycles])
      invariant SourcesPresent(env[..cycles])
      invariant Truthy(loopCount) ==> count < Goal(loopCount.value)
    {
      var input := env[cycles];
      CompletedStep(env, cycles);
      DispatchedStep(uid, token, browserId, env, cycles);
      PresentStep(env, cycles);
      cycles := cycles + 1;
      if input.loaded.Failure? {
        stop := SourcesMissing;
        break;
      }
      var proxies := input.loaded.value;
      if |proxies| == 0 {
        continue;
      }
      var tasks := RunAllProxies(uid, token, proxies, browserId, input.uuid);
      log := log + tasks;
      count := count + 1;
      if Truthy(loopCount) && count >= loopCount.value {
        stop := LimitReached;
        break;
      }
    }
    assert stop == InputExhausted ==> env[..cycles] == env;
  }

  /** A configured account: `{ token, browserId, delays }`. */
  datatype Account = Account(token: string, browserId: string, delays: int)

  /** What the session endpoint gives `getUid`: a failure, or a reply whose
      `data.uid` may be missing. */
  datatype SessionReply = SessionFailed | SessionData(uid: Option<string>)

  /** `getUid(token)` from the session reply: `response.data.data?.uid ||
      null`, and `null` on any failure. */
  function GetUid(reply: SessionReply): (uid: Option<string>)
    ensures uid.Some? <==> reply.SessionData? && reply.uid.Some? && reply.uid.value != []
    ensures uid.Some? ==> uid == reply.uid
  {
    match reply
    case SessionFailed => None
    case SessionData(u) => if u.Some? && u.value != [] then u else None
  }

  /** The arguments of one `loopProxies` call started by `main`. */
  datatype LoopStart = LoopStart(uid: string, account: Account, loopCount: Option<int>)

  /** `main` leaves `loopCount` at its default. */
  const DEFAULT_LOOP_COUNT: Option<int> := None

  /** The loops `main` starts: one per account whose uid resolved, in
      account order; the others are skipped. */
  function StartedLoops(accounts: seq<Account>, replies: seq<SessionReply>): (loops: seq<LoopStart>)
    requires |replies| == |accounts|
    ensures |loops| <= |accounts|
    ensures forall k :: 0 <= k < |loops| ==>
      loops[k].uid != [] && loops[k].account in accounts && loops[k].loopCount == DEFAULT_LOOP_COUNT
    decreases |accounts|
  {
    if accounts == [] then []
    else
      var uid := GetUid(replies[0]);
      (if uid.Some? then [LoopStart(uid.value, accounts[0], DEFAULT_LOOP_COUNT)] else [])
      + StartedLoops(accounts[1..], replies[1..])
  }

  /** The number of replies that resolve a uid. */
  function Resolved(replies: seq<SessionReply>): (n: nat)
    ensures n <= |replies|
    ensures n == 0 <==> forall k :: 0 <= k < |replies| ==> GetUid(replies[k]).None?
    ensures n == |replies| <==> forall k :: 0 <= k < |replies| ==> GetUid(replies[k]).Some?
    decreases |replies|
  {
    assert forall k :: 1 <= k < |replies| ==> replies[k] == replies[1..][k - 1];
    if replies == [] then 0 else (if GetUid(replies[0]).Some? then 1 else 0) + Resolved(replies[1..])
  }

  /** Exactly one loop per resolved account. */
  lemma {:induction false} StartedLoopsCount(accounts: seq<Account>, replies: seq<SessionReply>)
    requires |replies| == |accounts|
    ensures |StartedLoops(accounts, replies)| == Resolved(replies)
    decreases |accounts|
  {
    if accounts != [] {
      StartedLoopsCount(accounts[1..], replies[1..]);
    }
  }

  /** Accounts are handled independently: the loops for two groups of
      accounts are those of each group, in order. */
  lemma {:induction false} StartedLoopsAppend(a1: seq<Account>, r1: seq<SessionReply>,
                                               a2: seq<Account>, r2: seq<SessionReply>)
    requires |r1| == |a1| && |r2| == |a2|
    ensures StartedLoops(a1 + a2, r1 + r2) == StartedLoops(a1, r1) + StartedLoops(a2, r2)
    decreases |a1|
  {
    if a1 == [] {
      assert a1 + a2 == a2 && r1 + r2 == r2;
    } else {
      assert (a1 + a2)[1..] == a1[1..] + a2 && (r1 + r2)[1..] == r1[1..] + r2;
      StartedLoopsAppend(a1[1..], r1[1..], a2, r2);
    }
  }

  /** One account: a loop starts with the uid its own reply resolves, and
      none when the reply resolves none. */
  lemma StartedLoopsOfOne(account: Account, reply: SessionReply)
    ensures StartedLoops([account], [reply])
            == if GetUid(reply).Some? then [LoopStart(GetUid(reply).value, account, DEFAULT_LOOP_COUNT)] else []
  {
    assert [account][1..] == [] && [reply][1..] == [];
  }

  /** Two accounts, the first rejected by the session endpoint: exactly one
      loop starts, for the second. */
  lemma OneOfTwoAccountsStarts(bad: Account, good: Account, uid: string)
    requires uid != []
    ensures StartedLoops([bad, good], [SessionFailed, SessionData(Some(uid))])
            == [LoopStart(uid, good, DEFAULT_LOOP_COUNT)]
  {
    StartedLoopsAppend([bad], [SessionFailed], [good], [SessionData(Some(uid))]);
    assert [bad] + [good] == [bad, good];
    assert [SessionFailed] + [SessionData(Some(uid))] == [SessionFailed, SessionData(Some(uid))];
  }
}

=== FILE: jsstring.dfy ===
/** The parts of JavaScript's String API that the bot's parsing relies on:
    `trim`, `split` on a one-character separator (and its inverse, `join`),
    `startsWith`, `slice(start)`, and the `filter(x => x)` idiom that drops
    empty strings. Strings are sequences of code points. */
module JsString {

  /** The code points `String.prototype.trim` removes: ECMAScript's
      WhiteSpace (tab, vertical tab, form feed, space, no-break space,
      byte-order mark and the Unicode space separators) and its
      LineTerminator (line feed, carriage return, U+2028, U+2029). */
  predicate IsWhitespace(c: char) {
    c == '\t' || c == '\n' || c == '\U{000B}' || c == '\U{000C}' || c == '\r'
    || c == ' ' || c == '\U{00A0}' || c == '\U{1680}'
    || ('\U{2000}' <= c <= '\U{200A}')
    || c == '\U{2028}' || c == '\U{2029}' || c == '\U{202F}' || c == '\U{205F}'
    || c == '\U{3000}' || c == '\U{FEFF}'
  }

  predicate AllWhitespace(s: string) {
    forall k :: 0 <= k < |s| ==> IsWhitespace(s[k])
  }

  /** A string `trim` leaves unchanged: empty, or starting and ending with a
      non-whitespace code point. */
  predicate IsTrimmed(t: string) {
    t == [] || (!IsWhitespace(t[0]) && !IsWhitespace(t[|t| - 1]))
  }

  /** `s.startsWith(prefix)` */
  predicate StartsWith(s: string, prefix: string) {
    prefix <= s
  }

  /** Every code point of `s[lo..hi]` is whitespace. */
  predicate WhitespaceBetween(s: string, lo: nat, hi: nat)
    requires lo <= hi <= |s|
  {
    forall k :: lo <= k < hi ==> IsWhitespace(s[k])
  }

  /** Where `trimStart` stops: the first index at or after `i` whose code
      point is not whitespace, or `|s|`. */
  function SkipWhitespace(s: string, i: nat): (j: nat)
    requires i <= |s|
    ensures i <= j <= |s| && WhitespaceBetween(s, i, j)
    ensures j == |s| || !IsWhitespace(s[j])
    decreases |s| - i
  {
    if i < |s| && IsWhitespace(s[i]) then SkipWhitespace(s, i + 1) else i
  }

  /** Where `trimEnd` stops, scanning back from `j` but not below `i`: just
      past the last code point that is not whitespace. */
  function BackOverWhitespace(s: string, i: nat, j: nat): (e: nat)
    requires i <= j <= |s|
    ensures i <= e <= j && WhitespaceBetween(s, e, j)
    ensures e == i || !IsWhitespace(s[e - 1])
    decreases j
  {
    if i < j && IsWhitespace(s[j - 1]) then BackOverWhitespace(s, i, j - 1) else j
  }

  /** `s.trim()`: the middle of `s` once whitespace is removed at both ends. */
  function Trim(s: string): (r: string)
    ensures |r| <= |s|
    ensures IsTrimmed(r)
  {
    var i := SkipWhitespace(s, 0);
    var j := BackOverWhitespace(s, i, |s|);
    s[i..j]
  }

  /** What `trim` keeps is a piece of `s` with only whitespace before and
      after it. */
  lemma TrimIsMiddle(s: string)
    ensures var r := Trim(s);
      exists i :: 0 <= i <= |s| - |r| && s[i..i + |r|] == r
                  && AllWhitespace(s[..i]) && AllWhitespace(s[i + |r|..])
  {
    var i := SkipWhitespace(s, 0);
    var j := BackOverWhitespace(s, i, |s|);
    WhitespaceEnds(s, i, j);
    assert Trim(s) == s[i..j];
  }

  /** `trim` brings in no code point that `s` lacks. */
  lemma TrimAddsNothing(s: string, c: char)
    requires c !in s
    ensures c !in Trim(s)
  {
    var i := SkipWhitespace(s, 0);
    var j := BackOverWhitespace(s, i, |s|);
    assert Trim(s) == s[i..j];
    assert forall k :: 0 <= k < j - i ==> s[i..j][k] == s[i + k];
  }

  /** The whitespace runs `Trim` removes, as whole-string facts. */
  lemma WhitespaceEnds(s: string, i: nat, j: nat)
    requires i <= j <= |s| && WhitespaceBetween(s, 0, i) && WhitespaceBetween(s, j, |s|)
    ensures AllWhitespace(s[..i]) && AllWhitespace(s[j..])
    ensures s[i..i + (j - i)] == s[i..j]
  {
    assert forall k :: 0 <= k < i ==> s[..i][k] == s[k];
    assert forall k :: 0 <= k < |s| - j ==> s[j..][k] == s[j + k];
  }

  /** `SkipWhitespace` is determined by what it promises. */
  lemma {:induction false} SkipWhitespaceIs(s: string, i: nat, j: nat)
    requires i <= j <= |s| && WhitespaceBetween(s, i, j)
    requires j == |s| || !IsWhitespace(s[j])
    ensures SkipWhitespace(s, i) == j
    decreases j - i
  {
    if i < j {
      SkipWhitespaceIs(s, i + 1, j);
    }
  }

  /** `BackOverWhitespace` is determined by what it promises. */
  lemma {:induction false} BackOverWhitespaceIs(s: string, i: nat, e: nat, j: nat)
    requires i <= e <= j <= |s| && WhitespaceBetween(s, e, j)
    requires e == i || !IsWhitespace(s[e - 1])
    ensures BackOverWhitespace(s, i, j) == e
    decreases j
  {
    if e < j {
      BackOverWhitespaceIs(s, i, e, j - 1);
    }
  }

  /** Trimming is determined by its result: whatever whitespace surrounds a
      trimmed string, `trim` gives that string back. */
  lemma TrimOfPadded(a: string, t: string, b: string)
    requires AllWhitespace(a) && AllWhitespace(b) && IsTrimmed(t)
    ensures Trim(a + t + b) == t
  {
    var s := a + t + b;
    var m, n := |a|, |a| + |t|;
    assert forall k :: 0 <= k < m ==> s[k] == a[k];
    assert forall k :: n <= k < |s| ==> s[k] == b[k - n];
    if t == [] {
      SkipWhitespaceIs(s, 0, |s|);
      BackOverWhitespaceIs(s, |s|, |s|, |s|);
      assert s[|s|..|s|] == t;
    } else {
      assert s[m] == t[0] && s[n - 1] == t[|t| - 1];
      SkipWhitespaceIs(s, 0, m);
      BackOverWhitespaceIs(s, m, n, |s|);
      assert s[m..n] == t;
    }
  }

  /** `trim` is idempotent. */
  lemma TrimIdempotent(s: string)
    ensures Trim(Trim(s)) == Trim(s)
  {
    var t := Trim(s);
    TrimOfPadded([], t, []);
    assert [] + t + [] == t;
  }

  /** A string trims to the empty string exactly when it is all whitespace. */
  lemma TrimEmptyIff(s: string)
    ensures Trim(s) == [] <==> AllWhitespace(s)
  {
    if AllWhitespace(s) {
      TrimOfPadded(s, [], []);
      assert s + [] + [] == s;
    }
    var i := SkipWhitespace(s, 0);
    var j := BackOverWhitespace(s, i, |s|);
    assert Trim(s) == s[i..j];
    assert i == j ==> WhitespaceBetween(s, 0, |s|);
  }

  /** `parts.join(sep)` for a non-empty list of parts. */
  function Join(parts: seq<string>, sep: char): string
    requires |parts| >= 1
    decreases |parts|
  {
    if |parts| == 1 then parts[0] else parts[0] + [sep] + Join(parts[1..], sep)
  }

  /** `s.split(sep)` for a one-character separator: the maximal pieces of `s`
      between separators, one more than the separators in `s`; joining them
      again gives `s` back. */
  function Split(s: string, sep: char): (parts: seq<string>)
    ensures |parts| >= 1
    ensures forall k :: 0 <= k < |parts| ==> sep !in parts[k]
    ensures Join(parts, sep) == s
    decreases |s|
  {
    if s == [] then [[]]
    else
      var rest := Split(s[1..], sep);
      if s[0] == sep then
        assert ([[]] + rest)[1..] == rest;
        [[]] + rest
      else
        var parts := [[s[0]] + rest[0]] + rest[1..];
        assert parts[1..] == rest[1..];
        assert |rest| > 1 ==> Join(rest, sep) == rest[0] + [sep] + Join(rest[1..], sep);
        parts
  }

  /** Splitting a string that starts with a separator-free piece `w`. */
  lemma {:induction false} SplitAfterPiece(w: string, t: string, sep: char)
    requires sep !in w
    ensures Split(w + t, sep) == [w + Split(t, sep)[0]] + Split(t, sep)[1..]
    decreases |w|
  {
    if w == [] {
      var parts := Split(t, sep);
      assert w + t == t;
      assert w + parts[0] == parts[0];
      assert parts == [parts[0]] + parts[1..];
    } else {
      assert (w + t)[1..] == w[1..] + t;
      assert (w + t)[0] == w[0];
      SplitAfterPiece(w[1..], t, sep);
      assert [w[0]] + (w[1..] + Split(t, sep)[0]) == w + Split(t, sep)[0];
    }
  }

  /** `split` undoes `join` when no part contains the separator. */
  lemma {:induction false} SplitJoin(parts: seq<string>, sep: char)
    requires |parts| >= 1
    requires forall k :: 0 <= k < |parts| ==> sep !in parts[k]
    ensures Split(Join(parts, sep), sep) == parts
    decreases |parts|
  {
    if |parts| == 1 {
      SplitAfterPiece(parts[0], [], sep);
      assert parts[0] + [] == parts[0];
    } else {
      var t := Join(parts[1..], sep);
      assert Join(parts, sep) == parts[0] + ([sep] + t);
      SplitJoin(parts[1..], sep);
      SplitAfterSeparator(t, sep);
      var u := Split([sep] + t, sep);
      assert u[0] == [] && u[1..] == parts[1..];
      SplitAfterPiece(parts[0], [sep] + t, sep);
      assert parts[0] + u[0] == parts[0];
      assert [parts[0]] + parts[1..] == parts;
    }
  }

  /** A leading separator splits off an empty piece. */
  lemma SplitAfterSeparator(t: string, sep: char)
    ensures Split([sep] + t, sep) == [[]] + Split(t, sep)
  {
    assert ([sep] + t)[1..] == t;
  }

  /** A separator-free string is a single piece. */
  lemma SplitNoSeparator(s: string, sep: char)
    requires sep !in s
    ensures Split(s, sep) == [s]
  {
    SplitJoin([s], sep);
  }

  lemma {:induction false} JoinAppend(p: seq<string>, q: seq<string>, sep: char)
    requires |p| >= 1 && |q| >= 1
    ensures Join(p + q, sep) == Join(p, sep) + [sep] + Join(q, sep)
    decreases |p|
  {
    if |p| == 1 {
      assert (p + q)[1..] == q;
    } else {
      assert (p + q)[1..] == p[1..] + q;
      JoinAppend(p[1..], q, sep);
    }
  }

  /** Splitting distributes over a separator: the pieces of `a + sep + b` are
      the pieces of `a` followed by the pieces of `b`. */
  lemma SplitAround(a: string, b: string, sep: char)
    ensures Split(a + [sep] + b, sep) == Split(a, sep) + Split(b, sep)
  {
    var p, q := Split(a, sep), Split(b, sep);
    JoinAppend(p, q, sep);
    assert Join(p + q, sep) == a + [sep] + b;
    NoSeparatorInEither(p, q, sep);
    SplitJoin(p + q, sep);
  }

  lemma NoSeparatorInEither(p: seq<string>, q: seq<string>, sep: char)
    requires forall k :: 0 <= k < |p| ==> sep !in p[k]
    requires forall k :: 0 <= k < |q| ==> sep !in q[k]
    ensures forall k :: 0 <= k < |p + q| ==> sep !in (p + q)[k]
  {
    forall k | 0 <= k < |p + q| ensures sep !in (p + q)[k] {
      if k < |p| { assert (p + q)[k] == p[k]; } else { assert (p + q)[k] == q[k - |p|]; }
    }
  }

  /** The first part is a prefix of the joined string. */
  lemma JoinStartsWithHead(parts: seq<string>, sep: char)
    requires |parts| >= 1
    ensures StartsWith(Join(parts, sep), parts[0])
    ensures |parts| >= 2 ==> StartsWith(Join(parts, sep), parts[0] + [sep] + parts[1])
    ensures |parts| == 2 ==> Join(parts, sep) == parts[0] + [sep] + parts[1]
    ensures |parts| >= 3 ==> StartsWith(Join(parts, sep), parts[0] + [sep] + parts[1] + [sep])
  {
    if |parts| >= 2 {
      var t := Join(parts[1..], sep);
      assert |parts[1..]| >= 2 ==> t == parts[1] + [sep] + Join(parts[2..], sep);
      assert StartsWith(t, parts[1]);
      if |parts| >= 3 {
        assert StartsWith(t, parts[1] + [sep]);
        assert parts[0] + [sep] + parts[1] + [sep] == parts[0] + [sep] + (parts[1] + [sep]);
      }
    }
  }

  /** `s.slice(start)` for a non-negative start: empty when `start` is past
      the end. */
  function Slice(s: string, start: nat): (r: string)
    ensures |r| == if start <= |s| then |s| - start else 0
    ensures forall k :: 0 <= k < |r| ==> r[k] == s[start + k]
  {
    if start <= |s| then s[start..] else []
  }

  /** `xs.filter(x => x)` on strings: keeps the non-empty ones, in order. */
  function DropEmpty(xs: seq<string>): (r: seq<string>)
    ensures |r| <= |xs|
    ensures forall k :: 0 <= k < |r| ==> r[k] != [] && r[k] in xs
    decreases |xs|
  {
    if xs == [] then []
    else (if xs[0] == [] then [] else [xs[0]]) + DropEmpty(xs[1..])
  }

  /** Filtering distributes over concatenation, so it keeps the order of its
      input. */
  lemma {:induction false} DropEmptyAppend(a: seq<string>, b: seq<string>)
    ensures DropEmpty(a + b) == DropEmpty(a) + DropEmpty(b)
    decreases |a|
  {
    if a == [] {
      assert a + b == b;
    } else {
      assert (a + b)[0] == a[0];
      assert (a + b)[1..] == a[1..] + b;
      DropEmptyAppend(a[1..], b);
    }
  }

  /** Nothing is dropped from a list without empty strings. */
  lemma {:induction false} DropEmptyKeepsNonEmpty(xs: seq<string>)
    requires forall k :: 0 <= k < |xs| ==> xs[k] != []
    ensures DropEmpty(xs) == xs
    decreases |xs|
  {
    if xs != [] {
      DropEmptyKeepsNonEmpty(xs[1..]);
    }
  }

  /** Everything is dropped from a list of empty strings, and only then. */
  lemma {:induction false} DropEmptyNothingLeft(xs: seq<string>)
    ensures DropEmpty(xs) == [] <==> forall k :: 0 <= k < |xs| ==> xs[k] == []
    decreases |xs|
  {
    if xs != [] {
      DropEmptyNothingLeft(xs[1..]);
      assert forall k :: 1 <= k < |xs| ==> xs[k] == xs[1..][k - 1];
    }
  }
}

=== FILE: sources.dfy ===
/** `loadProxiesFromSource`: the proxy-source file is read into lines, one
    source line `url,protocol` is picked at random, the proxy list published
    at that URL is fetched, and each of its lines becomes a proxy URL by
    putting the protocol in front. Reading the file, `Math.random()` and the
    HTTP GET are inputs here: the file's text, a real number in [0, 1), and
    a function from URL to fetch outcome. */
module ProxySource {
  import opened Wrappers
  import opened JsString

  const NEWLINE: char := '\n'
  const COMMA: char := ','

  /** `lines.map(line => line.trim())` */
  function TrimEach(lines: seq<string>): (r: seq<string>)
    ensures |r| == |lines|
    ensures forall k :: 0 <= k < |r| ==> r[k] == Trim(lines[k]) && IsTrimmed(r[k])
  {
    seq(|lines|, k requires 0 <= k < |lines| => Trim(lines[k]))
  }

  /** The source list: the file split on line feeds, each line trimmed,
      blank lines dropped. */
  function SourceLines(text: string): (sources: seq<string>)
    ensures |sources| <= |Split(text, NEWLINE)|
    ensures forall k :: 0 <= k < |sources| ==> sources[k] != [] && IsTrimmed(sources[k])
  {
    DropEmpty(TrimEach(Split(text, NEWLINE)))
  }

  /** Every source is a non-empty, trimmed line of the file. */
  lemma SourceLinesAreLines(text: string)
    ensures forall k :: 0 <= k < |SourceLines(text)| ==> SourceLineOfFile(text, SourceLines(text)[k])
  {
    forall k | 0 <= k < |SourceLines(text)| ensures SourceLineOfFile(text, SourceLines(text)[k]) {
      SourceLineIs(text, k);
    }
  }

  /** `line` is a non-empty, trimmed line of `text`: the trim of one of the
      pieces between its line feeds. */
  predicate SourceLineOfFile(text: string, line: string) {
    && line != [] && Trim(line) == line && NEWLINE !in line
    && exists j :: 0 <= j < |Split(text, NEWLINE)| && line == Trim(Split(text, NEWLINE)[j])
  }

  lemma SourceLineIs(text: string, k: nat)
    requires k < |SourceLines(text)|
    ensures SourceLineOfFile(text, SourceLines(text)[k])
  {
    var lines := Split(text, NEWLINE);
    var trimmed := TrimEach(lines);
    assert SourceLines(text)[k] in trimmed;
    var j :| 0 <= j < |trimmed| && trimmed[j] == SourceLines(text)[k];
    TrimIdempotent(lines[j]);
    TrimAddsNothing(lines[j], NEWLINE);
  }

  /** The sources of two blocks of lines joined by a line feed are those of
      the first block followed by those of the second: sources keep the
      order of the file. */
  lemma SourceLinesAround(a: string, b: string)
    ensures SourceLines(a + [NEWLINE] + b) == SourceLines(a) + SourceLines(b)
  {
    SplitAround(a, b, NEWLINE);
    var p, q := Split(a, NEWLINE), Split(b, NEWLINE);
    TrimEachAppend(p, q);
    DropEmptyAppend(TrimEach(p), TrimEach(q));
  }

  lemma TrimEachAppend(p: seq<string>, q: seq<string>)
    ensures TrimEach(p + q) == TrimEach(p) + TrimEach(q)
  {
    var l, lp, lq := TrimEach(p + q), TrimEach(p), TrimEach(q);
    forall k | 0 <= k < |p| ensures l[k] == lp[k] {
      assert (p + q)[k] == p[k];
    }
    forall k | |p| <= k < |p| + |q| ensures l[k] == lq[k - |p|] {
      assert (p + q)[k] == q[k - |p|];
    }
    assert l == lp + lq;
  }

  /** A single line is a source exactly when it is not blank, and then the
      source is the trimmed line. */
  lemma SourceLinesOfLine(line: string)
    requires NEWLINE !in line
    ensures SourceLines(line) == if Trim(line) == [] then [] else [Trim(line)]
  {
    SplitNoSeparator(line, NEWLINE);
    var trimmed := TrimEach([line]);
    assert trimmed == [Trim(line)];
    assert trimmed[1..] == [];
    assert DropEmpty(trimmed[1..]) == [];
  }

  /** Joined parts are all whitespace exactly when every part is, since the
      line feed between them is whitespace too. */
  lemma {:induction false} JoinAllWhitespace(parts: seq<string>)
    requires |parts| >= 1
    ensures AllWhitespace(Join(parts, NEWLINE))
            <==> forall k :: 0 <= k < |parts| ==> AllWhitespace(parts[k])
    decreases |parts|
  {
    if |parts| > 1 {
      JoinAllWhitespace(parts[1..]);
      var t := Join(parts[1..], NEWLINE);
      var s := parts[0] + [NEWLINE] + t;
      assert forall k :: 0 <= k < |parts[0]| ==> s[k] == parts[0][k];
      assert forall k :: 0 <= k < |t| ==> s[|parts[0]| + 1 + k] == t[k];
      assert forall k :: 1 <= k < |parts| ==> parts[k] == parts[1..][k - 1];
      if forall k :: 0 <= k < |parts| ==> AllWhitespace(parts[k]) {
        forall k | 0 <= k < |s| ensures IsWhitespace(s[k]) {
          if k > |parts[0]| {
            assert s[k] == t[k - |parts[0]| - 1];
          }
        }
      }
    }
  }

  /** The "No proxy sources" error is raised exactly for a file that holds
      nothing but whitespace. */
  lemma NoSourcesIff(text: string)
    ensures SourceLines(text) == [] <==> AllWhitespace(text)
  {
    var lines := Split(text, NEWLINE);
    var trimmed := TrimEach(lines);
    DropEmptyNothingLeft(trimmed);
    forall k | 0 <= k < |lines| ensures trimmed[k] == [] <==> AllWhitespace(lines[k]) {
      TrimEmptyIff(lines[k]);
    }
    JoinAllWhitespace(lines);
  }

  /** A source line split on commas: the URL before the first comma and,
      when there is a comma, the protocol between it and the next one. */
  datatype SourceEntry = SourceEntry(url: string, protocol: Option<string>)

  /** `const [sourceUrl, protocol] = line.split(',')`: any further fields
      are dropped, and `protocol` is `undefined` when the line has no comma. */
  function SplitSource(line: string): (e: SourceEntry)
    ensures COMMA !in e.url
    ensures e.protocol.None? <==> COMMA !in line
    ensures e.protocol.None? ==> e.url == line
    ensures e.protocol.Some? ==>
      COMMA !in e.protocol.value && StartsWith(line, e.url + [COMMA] + e.protocol.value)
    ensures e.protocol.Some? ==>
      line == e.url + [COMMA] + e.protocol.value
      || StartsWith(line, e.url + [COMMA] + e.protocol.value + [COMMA])
  {
    var parts := Split(line, COMMA);
    JoinStartsWithHead(parts, COMMA);
    assert |parts| >= 2 ==> line[|parts[0]|] == COMMA;
    SourceEntry(parts[0], if |parts| >= 2 then Some(parts[1]) else None)
  }

  /** `protocol || ''`: a missing protocol is the empty prefix. */
  function ProtocolPrefix(protocol: Option<string>): (prefix: string)
    ensures protocol.None? ==> prefix == []
    ensures protocol.Some? ==> prefix == protocol.value
  {
    match protocol
    case None => []
    case Some(p) => p
  }

  /** `lines.map(proxy => prefix + proxy.trim())` */
  function PrefixEach(prefix: string, lines: seq<string>): (r: seq<string>)
    ensures |r| == |lines|
    ensures forall k :: 0 <= k < |r| ==> StartsWith(r[k], prefix) && r[k][|prefix|..] == Trim(lines[k])
  {
    seq(|lines|, k requires 0 <= k < |lines| => prefix + Trim(lines[k]))
  }

  /** The proxies in a fetched body: each line trimmed and prefixed with
      the protocol, and only then are empty results dropped. */
  function ProxyList(body: string, prefix: string): (proxies: seq<string>)
    ensures |proxies| <= |Split(body, NEWLINE)|
    ensures forall k :: 0 <= k < |proxies| ==> proxies[k] != [] && StartsWith(proxies[k], prefix)
  {
    DropEmpty(PrefixEach(prefix, Split(body, NEWLINE)))
  }

  /** With a protocol, nothing is dropped: every body line, blank ones
      included, yields `protocol + line.trim()`, in body order. */
  lemma ProxyListKeepsEveryLine(body: string, prefix: string)
    requires prefix != []
    ensures ProxyList(body, prefix) == PrefixEach(prefix, Split(body, NEWLINE))
    ensures |ProxyList(body, prefix)| == |Split(body, NEWLINE)|
  {
    DropEmptyKeepsNonEmpty(PrefixEach(prefix, Split(body, NEWLINE)));
  }

  /** Without a protocol, a body is read exactly as the source file is. */
  lemma ProxyListWithoutProtocol(body: string)
    ensures ProxyList(body, []) == SourceLines(body)
  {
    var lines := Split(body, NEWLINE);
    forall k | 0 <= k < |lines| ensures PrefixEach([], lines)[k] == TrimEach(lines)[k] {
      assert [] + Trim(lines[k]) == Trim(lines[k]);
    }
    assert PrefixEach([], lines) == TrimEach(lines);
  }

  /** Proxies keep the order of the body's lines. */
  lemma ProxyListAround(a: string, b: string, prefix: string)
    ensures ProxyList(a + [NEWLINE] + b, prefix) == ProxyList(a, prefix) + ProxyList(b, prefix)
  {
    SplitAround(a, b, NEWLINE);
    var p, q := Split(a, NEWLINE), Split(b, NEWLINE);
    PrefixEachAppend(prefix, p, q);
    DropEmptyAppend(PrefixEach(prefix, p), PrefixEach(prefix, q));
  }

  lemma PrefixEachAppend(prefix: string, p: seq<string>, q: seq<string>)
    ensures PrefixEach(prefix, p + q) == PrefixEach(prefix, p) + PrefixEach(prefix, q)
  {
    var l, lp, lq := PrefixEach(prefix, p + q), PrefixEach(prefix, p), PrefixEach(prefix, q);
    forall k | 0 <= k < |p| ensures l[k] == lp[k] {
      assert (p + q)[k] == p[k];
    }
    forall k | |p| <= k < |p| + |q| ensures l[k] == lq[k - |p|] {
      assert (p + q)[k] == q[k - |p|];
    }
    assert l == lp + lq;
  }

  /** With a protocol, one line gives one proxy, blank or not. */
  lemma ProxyListOfLine(line: string, prefix: string)
    requires NEWLINE !in line && prefix != []
    ensures ProxyList(line, prefix) == [prefix + Trim(line)]
  {
    ProxyListKeepsEveryLine(line, prefix);
    SplitNoSeparator(line, NEWLINE);
    assert PrefixEach(prefix, [line]) == [prefix + Trim(line)];
  }

  /** With a protocol, an empty body is one blank line: the bare prefix. */
  lemma ProxyListOfEmptyBody(prefix: string)
    requires prefix != []
    ensures ProxyList([], prefix) == [prefix]
  {
    ProxyListOfLine([], prefix);
    TrimEmptyIff([]);
    assert prefix + [] == prefix;
  }

  /** A body ending in a line feed, as most list files do, yields the bare
      protocol as its last proxy: `1.2.3.4:8080\n` read with `http://` gives
      `http://1.2.3.4:8080` and then `http://` alone. */
  lemma TrailingNewlineYieldsBarePrefix(address: string, prefix: string)
    requires NEWLINE !in address && IsTrimmed(address) && prefix != []
    ensures ProxyList(address + [NEWLINE], prefix) == [prefix + address, prefix]
  {
    assert address + [NEWLINE] + [] == address + [NEWLINE];
    ProxyListAround(address, [], prefix);
    ProxyListOfAddress(address, prefix);
    ProxyListOfEmptyBody(prefix);
  }

  lemma ProxyListOfAddress(address: string, prefix: string)
    requires NEWLINE !in address && IsTrimmed(address) && prefix != []
    ensures ProxyList(address, prefix) == [prefix + address]
  {
    ProxyListOfLine(address, prefix);
    TrimOfPadded([], address, []);
    assert [] + address + [] == address;
  }

  /** A value of `Math.random()`: a real number in [0, 1). */
  type RandomValue = r: real | 0.0 <= r < 1.0

  lemma ScaledBelow(rnd: real, n: nat)
    requires 0.0 <= rnd < 1.0 && n > 0
    ensures 0.0 <= rnd * n as real < n as real
  {
    var m := n as real;
    assert m - rnd * m == (1.0 - rnd) * m;
    assert (1.0 - rnd) * m > 0.0;
  }

  /** `Math.floor(Math.random() * n)`: the index of the chosen source. */
  function PickIndex(rnd: RandomValue, n: nat): (i: nat)
    requires n > 0
    ensures i < n
    ensures i as real <= rnd * n as real < (i + 1) as real
  {
    ScaledBelow(rnd, n);
    (rnd * n as real).Floor
  }

  /** Every source can be chosen: `rnd` in [i/n, (i+1)/n) picks the i-th. */
  lemma EverySourceReachable(i: nat, n: nat)
    requires i < n
    ensures 0.0 <= i as real / n as real < 1.0
    ensures PickIndex(i as real / n as real, n) == i
  {
    var rnd := i as real / n as real;
    assert rnd * n as real == i as real;
  }

  /** What the HTTP GET of a source URL gives: a text body, or a failure
      (a network error, an error status, or a body that is not text). */
  datatype Fetch = Body(text: string) | FetchFailed

  /** The one error that leaves `loadProxiesFromSource`. */
  datatype LoadError = NoProxySources

  /** The source line chosen for a given random number. */
  function ChosenEntry(sourceText: string, rnd: RandomValue): (e: SourceEntry)
    requires SourceLines(sourceText) != []
    ensures exists k :: 0 <= k < |SourceLines(sourceText)|
                        && SplitSource(SourceLines(sourceText)[k]) == e
  {
    var sources := SourceLines(sourceText);
    var k := PickIndex(rnd, |sources|);
    var e := SplitSource(sources[k]);
    assert 0 <= k < |sources| && SplitSource(sources[k]) == e;
    e
  }

  /** Every source is chosen by some random value: `i / n` picks the
      `i`-th of the `n` sources. */
  lemma ChosenEntryReachable(sourceText: string, i: nat)
    requires i < |SourceLines(sourceText)|
    ensures var n := |SourceLines(sourceText)|;
      && 0.0 <= i as real / n as real < 1.0
      && ChosenEntry(sourceText, i as real / n as real) == SplitSource(SourceLines(sourceText)[i])
  {
    EverySourceReachable(i, |SourceLines(sourceText)|);
  }

  /** `loadProxiesFromSource(file)`. An empty source list throws; a failed
      fetch, or one that yields no proxies, is caught and gives `[]`. */
  function LoadProxies(sourceText: string, rnd: RandomValue, fetch: string -> Fetch)
    : (r: Result<seq<string>, LoadError>)
    ensures r.Failure? <==> SourceLines(sourceText) == []
    ensures r.Failure? ==> r.error == NoProxySources
    ensures r.Success? ==>
      var e := ChosenEntry(sourceText, rnd);
      && (fetch(e.url).FetchFailed? ==> r.value == [])
      && (fetch(e.url).Body? ==> r.value == ProxyList(fetch(e.url).text, ProtocolPrefix(e.protocol)))
      && forall k :: 0 <= k < |r.value| ==>
           r.value[k] != [] && StartsWith(r.value[k], ProtocolPrefix(e.protocol))
  {
    var sources := SourceLines(sourceText);
    if sources == [] then
      Failure(NoProxySources)
    else
      var entry := ChosenEntry(sourceText, rnd);
      match fetch(entry.url)
      case FetchFailed => Success([])
      case Body(text) =>
        var proxies := ProxyList(text, ProtocolPrefix(entry.protocol));
        if |proxies| == 0 then Success([]) else Success(proxies)
  }

  /** When the file holds at least one source and the chosen source URL
      answers with a body that has a non-blank line, a non-empty proxy list
      comes back. */
  lemma LoadFromLiveUpstream(sourceText: string, rnd: RandomValue, fetch: string -> Fetch)
    requires SourceLines(sourceText) != []
    requires fetch(ChosenEntry(sourceText, rnd).url).Body?
    requires !AllWhitespace(fetch(ChosenEntry(sourceText, rnd).url).text)
    ensures LoadProxies(sourceText, rnd, fetch).Success?
    ensures LoadProxies(sourceText, rnd, fetch).value != []
  {
    NoSourcesIff(sourceText);
    var e := ChosenEntry(sourceText, rnd);
    var body := fetch(e.url).text;
    var prefix := ProtocolPrefix(e.protocol);
    if prefix == [] {
      ProxyListWithoutProtocol(body);
      NoSourcesIff(body);
    } else {
      ProxyListKeepsEveryLine(body, prefix);
    }
  }

  /** When the upstream fails, a file with sources gives the empty list and
      no error. */
  lemma LoadFromDeadUpstream(sourceText: string, rnd: RandomValue, fetch: string -> Fetch)
    requires SourceLines(sourceText) != []
    requires fetch(ChosenEntry(sourceText, rnd).url) == FetchFailed
    ensures LoadProxies(sourceText, rnd, fetch) == Success([])
  {
    NoSourcesIff(sourceText);
  }
}

=== FILE: wrappers.dfy ===
/** Failure-compatible values used across the model: `Option` for the
    JavaScript `null`/`undefined` cases and `Result` for thrown errors. */
module Wrappers {

  datatype Option<+T> = None | Some(value: T)

  datatype Result<+R, +E> = Success(value: R) | Failure(error: E)
}
